=== FILE: README.md ===
# Proof-of-work ledger: a Dafny model

This project models the `BlockChain` ledger of a small proof-of-work blockchain node
(`blockchain.py`). A ledger holds a chain of blocks, a queue of pending transactions and a
set of peer locations. Blocks are created by moving the whole pending queue into a new
block, linked to its predecessor by digest and sealed by a proof-of-work nonce. Peers'
chains are checked by a chain validator, and a longest-valid-chain rule decides when the
local chain is replaced.

The model is functional. `Block` and `Transaction` are immutable datatypes. The ledger is a
`State` record (`chain`, `pending`, `nodes`) that the operations thread through. The block
digest (SHA-256 of a JSON serialisation) is a parameter `hash: Block -> string`. Every
property is proved for all such functions. The URL parser's `netloc` extraction is also a
parameter. The peer fetch becomes an input: one answer per registered peer, in the order the
peer set is visited.

Modules, one per component:

- `Blocks`: transactions, blocks, the digest type, the genesis marker and the errors the code raises.
- `Puzzle`: the difficulty test, `valid_proof` and the `proof_of_work` search loop.
- `Validator`: `vaild_chain`, both as intended and as written.
- `BlockChain`: the ledger state, its constructor, `last_block`, `new_block`, `new_transaction` and `register_node`.
- `Consensus`: `resolve_conflicts`.
- `Wrappers`: `Option` and `Result`.

Exceptions the code raises become `Result.Failure` values. An empty chain raises on
`chain[-1]` or `chain[0]`. A failed peer fetch is not caught.

The model follows what the code does, including where one might expect otherwise:

- A peer whose fetch raises aborts the whole resolution. One might expect such a peer to be skipped, but `requests.get` is called with no handler around it.
- Validating an empty chain raises an error rather than accepting it, because the code reads `chain[0]` first. Resolution therefore fails when it validates a status-200 answer with an empty chain.
- Consensus compares the length the peer *reports*, not the length of the chain it sends. `MisreportedLengthShrinksChain` shows that a peer reporting a false length can shrink the local chain. `ResolveGrowsWithHonestPeers` shows that honest reports always make it grow.
- `new_block` uses `previous_hash or hash(last_block)`. An explicit empty string therefore falls back to the last block's digest, and it still skips the proof-of-work search.
- Contiguous block indices (`Indexed`) hold only under construction, mining and transaction admission. The validator checks neither indices nor the first block, so an adopted peer chain keeps the chain non-empty, linked and mined but may lose contiguous indices. In the model's one-`Block` representation, `NewTransaction` then returns the adopted last block's index plus one, not the chain length plus one. The source itself fails there instead; see the Left out line on peer blocks.
- The proof check in `vaild_chain` (line 152) is modelled as intended: the current block is checked against its own recorded proof. The line as written is kept as a separate member; see Findings.

## Model

| member | source | states |
|---|---|---|
| Puzzle.Head | blockchain.py:124 | Python's `s[0:2]` slice: it has length min(2, \|s\|) and is a prefix of the digest |
| Puzzle.MeetsDifficultyIff | blockchain.py:124-127 | a digest passes the difficulty test exactly when it has at least two characters and both are '0'; a shorter digest never passes |
| Puzzle.ValidProof | blockchain.py:111-127 | a nonce passes for a block exactly when the digest of the block with that nonce substituted has at least two characters and both are '0' |
| Puzzle.ValidProofIgnoresRecordedProof | blockchain.py:111-122 | checking a nonce overrides whatever proof the block records; a block is mined exactly when its own digest meets the difficulty |
| Puzzle.LeastProofUnique | blockchain.py:105-109 | the least passing nonce is unique, so the search result is determined by the block |
| Puzzle.ProofOfWork | blockchain.py:96-109 | given that some nonce passes, the search returns a passing nonce and every smaller non-negative nonce fails |
| Validator.CheckFrom | blockchain.py:142-158 | the validator loop from index i returns true exactly when every later position links to its predecessor's digest and carries a passing proof |
| Validator.ValidChain | blockchain.py:130-158 | the intended validator: it fails exactly on an empty chain, accepts every one-block chain, and otherwise returns true iff the chain is linked and mined |
| Validator.ValidChainAsWritten | blockchain.py:139-158 | the validator as written: it returns true iff the chain has one block, false iff the first link is broken, and otherwise raises |
| Validator.AsWrittenRejectsLinkedChains | blockchain.py:148-153 | on every linked, mined chain of two or more blocks the intended validator accepts, while the code as written raises |
| Validator.CorruptedLinkIsRejected | blockchain.py:147-149 | changing one block's previous-hash away from its predecessor's digest makes the validator return false |
| Validator.LinkedAppend | blockchain.py:47-54 | appending a block that links to the last block's digest and is mined keeps the chain valid |
| BlockChain.LastBlock | blockchain.py:91-93 | the last block exists exactly when the chain is non-empty, and it is the final element of the chain; with contiguous indices its index equals the chain length |
| BlockChain.LastBlockAfterCommit | blockchain.py:53-54 | after a block is committed it is the last block read at lines 91-93, and the earlier blocks are the old chain |
| BlockChain.Link | blockchain.py:47 | a non-empty explicit previous-hash is used as given; an absent or empty one falls back to the digest of the last block, and fails exactly when the chain is empty |
| BlockChain.Init | blockchain.py:32-39 | a new ledger has one block (index 1, previous-hash "0", proof 0, no transactions), an empty queue and no peers |
| BlockChain.InitWellformed | blockchain.py:32-54 | a new ledger satisfies the ledger invariant (non-empty, contiguous indices, linked and mined) for every digest function |
| BlockChain.NewBlock | blockchain.py:42-55 | appends exactly one block with index \|chain\|+1 holding exactly the prior pending queue. It empties the queue, leaves earlier blocks and the peers unchanged, and the new block becomes the last block. Without an explicit previous-hash the block links to the last block's digest, carries the least passing nonce and keeps the ledger invariant. With an explicit non-empty one the block uses it and keeps proof 0. It fails only when there is no last block to hash |
| BlockChain.NewTransaction | blockchain.py:58-74 | appends the transaction to the end of the pending queue without touching the chain or the peers. It returns the last block's index plus one, which is \|chain\|+1 when indices are contiguous, and no index on an empty chain |
| BlockChain.NewTransactionWellformed | blockchain.py:69-74 | admitting a transaction keeps the ledger invariant |
| BlockChain.RegisterNode | blockchain.py:160-167 | the address's network location is added to the peer set. The set only grows, gains nothing else, and chain and queue are unchanged |
| BlockChain.RegisterNodeIdempotent | blockchain.py:166-167 | registering a second address with the same network location as the first, including the same address twice, changes nothing, and the set's size stays the same |
| BlockChain.RegisterKnownLocationIsNoOp | blockchain.py:166-167 | registering an address whose network location is already in the peer set leaves the whole state unchanged |
| Consensus.Scan | blockchain.py:179-190 | the consensus loop fails if any peer's fetch failed, and the tracked maximum length never decreases |
| Consensus.ScanAdoptsCandidate | blockchain.py:181-190 | the loop either keeps its starting point or ends on the answer of a status-200 peer whose reported length exceeds the starting length and whose chain validates |
| Consensus.ScanPicksFirstLongest | blockchain.py:179-190 | with all answers present and no validator error, the loop succeeds. It keeps its starting point iff nothing qualifies; otherwise it ends on the first of the longest qualifying answers |
| Consensus.ScanTakeStep | blockchain.py:188-190 | with every answer present and no validator error, when the current answer qualifies, the loop still ends on the first of the longest qualifying answers, which is either this one or the first longest of the rest |
| Consensus.ScanSkipStep | blockchain.py:184-188 | with every answer present and no validator error, when the current answer does not qualify, the loop still ends on the first of the longest qualifying answers, found among the rest |
| Consensus.ScanRaisesFromValidator | blockchain.py:184-188 | if every earlier peer answered, and every earlier status-200 answer validates without error and reports a shorter length, then a status-200 answer reporting more than the starting length gets validated, and a validator error there fails the loop with that error |
| Consensus.ResolveConflicts | blockchain.py:170-195 | resolution adopts only a non-empty chain that is linked and mined, from a status-200 answer reporting a length strictly above the local length. Without a replacement the state is untouched, and a failed fetch fails the call |
| Consensus.ResolveConflictsAsWritten | blockchain.py:170-195 | with the validator as written at line 152, resolution can only ever adopt a one-block chain from a status-200 answer reporting a longer length; otherwise the state is untouched, and a failed fetch fails the call |
| Consensus.ResolveConflictsPicksFirstLongest | blockchain.py:176-195 | when every peer answers and every status-200 answer carries a non-empty chain, resolution returns false and keeps the state iff no answer qualifies. Otherwise it returns true and adopts the first of the longest qualifying chains; ties never replace |
| Consensus.ResolveConflictsFailsOnEmptyChain | blockchain.py:184-188 | if every earlier peer answered, and every earlier status-200 answer carries a non-empty chain and reports a shorter length, then a status-200 answer with an empty chain reporting more than the local length makes resolution fail with the empty-chain error, because validation reads `chain[0]` at line 139 |
| Consensus.ResolveConflictsKeepsLinked | blockchain.py:188-193 | resolution keeps the chain non-empty, linked and mined |
| Consensus.ResolveConflictsCanLoseIndices | blockchain.py:188-193 | in the model's one-`Block` representation, adopting a one-block chain whose block has index 7 breaks contiguous indices, and the model's `NewTransaction` then returns 8 on a chain of one block |
| Consensus.ResolveGrowsWithHonestPeers | blockchain.py:185-193 | when peers report their true lengths, a replacement makes the local chain strictly longer |
| Consensus.MisreportedLengthShrinksChain | blockchain.py:185-193 | a peer reporting length 5 for a one-block chain replaces a two-block local chain |

## Left out

- Flask routes, the `/mine` reward transaction, argument parsing and `app.run` (blockchain.py:201-285): request/response plumbing around the ledger.
- The peer fetch `requests.get` (blockchain.py:182): network I/O. It is replaced by an input sequence of answers, with None for a fetch that raised.
- SHA-256 and the jsonpickle/JSON serialisation (blockchain.py:87-88): foreign library calls. The digest is an arbitrary function parameter.
- `time()` (blockchain.py:44): a floating-point clock read. The timestamp is an integer parameter.
- `uuid4` node identity (blockchain.py:203): randomness, used only by the `/mine` route.
- The debug `print` calls (blockchain.py:144-146): output only.
- `urlparse` (blockchain.py:166): a library call. Extracting `netloc` is a function parameter.
- Blocks that arrive from peers as JSON dicts rather than `Block` objects (blockchain.py:148, 186, 193): the model uses one `Block` datatype throughout. As a consequence, after an adoption the source's chain holds dicts, so `self.last_block.index` at blockchain.py:74 raises AttributeError where the model reads the index. In the source, `new_transaction`, and with it the `/mine` route, fails after any adoption.
- The in-place mutation of `block.proof` by `valid_proof` (blockchain.py:121): the model keeps blocks immutable. `NewBlock` stores the found nonce in the block, which is the end state that mutation leaves.
- Puzzle.ProofOfWork: requires that some non-negative nonce passes. Without one, the source's search runs forever.
- Consensus.ResolveConflicts: requires one answer per registered peer, in the order the peer set is iterated. That order is not specified by the source.

## Findings

| source | as written | input that shows it | evidently intended | confidence | as-written member | corrected member |
|---|---|---|---|---|---|---|
| blockchain.py:152 | `valid_proof(last_block['proof'], block['proof'])` subscripts a `Block` object and passes a number where a block is expected | any chain of two blocks whose second block links to the first block's digest, such as the ledger after one `new_block()`: the link check passes, then subscripting the block raises | `valid_proof(block, block.proof)`, checking the current block against its own recorded proof | high; not executed | Validator.ValidChainAsWritten | Validator.ValidChain |

=== FILE: blockchain.dfy ===
/** The ledger state of `BlockChain` and its block, transaction and peer operations
    (blockchain.py:31-93, 160-167). */
module BlockChain {
  import opened Wrappers
  import opened Blocks
  import opened Puzzle
  import opened Validator

  /** `chain` holds the blocks, `pending` the transactions not yet in a block (in admission
      order), `nodes` the registered peer locations. */
  datatype State = State(chain: seq<Block>, pending: seq<Transaction>, nodes: set<string>)

  /** A block creation's outcome: the new state and the block appended to it. */
  datatype Minted = Minted(state: State, block: Block)

  /** A transaction admission's outcome. The transaction is queued even when reading the
      last block afterwards raises, so `index` is then None but `state` still holds it. */
  datatype Admission = Admission(state: State, index: Option<int>)

  /** Block `i` (0-based) carries index `i + 1`. */
  predicate Indexed(chain: seq<Block>) {
    forall i :: 0 <= i < |chain| ==> chain[i].index == i + 1
  }

  /** The ledger invariant kept by construction and by mining: a non-empty chain with
      contiguous indices, each block after the genesis linked to its predecessor and mined. */
  predicate Wellformed(hash: Hasher, st: State) {
    |st.chain| > 0 && Indexed(st.chain) && Linked(hash, st.chain)
  }

  /** The block `new_block` builds before any proof-of-work: next index, the given time,
      the whole pending queue and proof 0. */
  function Assemble(st: State, timestamp: int, link: string): Block {
    Block(|st.chain| + 1, timestamp, st.pending, 0, link)
  }

  /** Appending the block and starting a fresh pending queue. The block keeps the list the
      queue held, because the queue is rebound to a new empty list rather than cleared. */
  function Commit(st: State, b: Block): State {
    st.(chain := st.chain + [b], pending := [])
  }

  /** `last_block`: the most recently appended block; `chain[-1]` raises on an empty chain. */
  function LastBlock(st: State): (r: Result<Block, Error>)
    ensures r.Success? <==> |st.chain| > 0
    ensures r.Success? ==> r.value == st.chain[|st.chain| - 1]
    ensures |st.chain| > 0 && Indexed(st.chain) ==> r.Success? && r.value.index == |st.chain|
  {
    if |st.chain| == 0 then Failure(EmptyChain) else Success(st.chain[|st.chain| - 1])
  }

  /** After a block is committed it is the last block. */
  lemma LastBlockAfterCommit(st: State, b: Block)
    ensures LastBlock(Commit(st, b)) == Success(b)
    ensures Commit(st, b).chain[..|st.chain|] == st.chain
  {
  }

  /** `previous_hash or self.hash(self.last_block)`: a non-empty explicit value wins; an absent
      or empty one falls back to the digest of the last block, which raises on an empty chain. */
  function Link(hash: Hasher, st: State, previousHash: Option<string>): (r: Result<string, Error>)
    ensures previousHash.Some? && previousHash.value != "" ==> r == Success(previousHash.value)
    ensures (previousHash.None? || previousHash.value == "") ==>
      (r.Success? <==> |st.chain| > 0) && (r.Success? ==> r.value == hash(st.chain[|st.chain| - 1]))
    ensures r.Failure? ==> r.error == EmptyChain
  {
    if previousHash.Some? && previousHash.value != "" then Success(previousHash.value)
    else match LastBlock(st)
      case Success(last) => Success(hash(last))
      case Failure(e) => Failure(e)
  }

  /** The constructor: no peers, an empty queue, and the genesis block created by
      `new_block` with the explicit marker, so it is not mined. */
  function Init(timestamp: int): (st: State)
    ensures |st.chain| == 1 && st.pending == [] && st.nodes == {}
    ensures st.chain[0] == Block(1, timestamp, [], 0, GenesisMarker)
  {
    var empty := State([], [], {});
    Commit(empty, Assemble(empty, timestamp, GenesisMarker))
  }

  /** A freshly constructed ledger satisfies the ledger invariant for every digest. */
  lemma InitWellformed(hash: Hasher, timestamp: int)
    ensures Wellformed(hash, Init(timestamp))
  {
  }

  /** `new_block(previous_hash)`. Without an explicit value the block links to the last
      block's digest and is mined: the search's last guess stays in the block's proof field.
      With an explicit value the search is skipped and the proof stays 0. */
  method NewBlock(hash: Hasher, st: State, timestamp: int, previousHash: Option<string>)
    returns (r: Result<Minted, Error>)
    requires previousHash.None? && |st.chain| > 0 ==>
      Solvable(hash, Assemble(st, timestamp, hash(st.chain[|st.chain| - 1])))
    ensures r.Failure? <==> (previousHash.None? || previousHash.value == "") && |st.chain| == 0
    ensures r.Success? ==>
      && r.value.state.chain == st.chain + [r.value.block]
      && r.value.block.index == |st.chain| + 1
      && r.value.block.timestamp == timestamp
      && r.value.block.transactions == st.pending
      && r.value.state.pending == []
      && r.value.state.nodes == st.nodes
    ensures r.Success? ==> LastBlock(r.value.state) == Success(r.value.block)
    ensures r.Success? && previousHash.Some? ==> r.value.block.proof == 0
    ensures r.Success? && previousHash.Some? && previousHash.value != "" ==>
      r.value.block.previousHash == previousHash.value
    ensures r.Success? && (previousHash.None? || previousHash.value == "") ==>
      r.value.block.previousHash == hash(st.chain[|st.chain| - 1])
    ensures r.Success? && previousHash.None? ==>
      r.value.block.proof >= 0 && IsLeastProof(hash, r.value.block, r.value.block.proof)
    ensures r.Success? && previousHash.None? ==> Mined(hash, r.value.block)
    ensures r.Success? && previousHash.None? && Wellformed(hash, st) ==> Wellformed(hash, r.value.state)
  {
    var link := Link(hash, st, previousHash);
    if link.Failure? {
      return Failure(link.error);
    }
    var block := Assemble(st, timestamp, link.value);
    if previousHash.None? {
      var proof := ProofOfWork(hash, block);
      var solved := block.(proof := proof);
      forall k: int
        ensures ValidProof(hash, solved, k) == ValidProof(hash, block, k)
      {
        ValidProofIgnoresRecordedProof(hash, block, proof, k);
      }
      block := solved;
      if Wellformed(hash, st) {
        LinkedAppend(hash, st.chain, block);
      }
    }
    LastBlockAfterCommit(st, block);
    r := Success(Minted(Commit(st, block), block));
  }

  /** `new_transaction`: queue the transaction at the end of the pending queue and report the
      index of the block that will hold it, read from the last block. */
  function NewTransaction(st: State, sender: string, recipient: string, amount: int): (r: Admission)
    ensures r.state.pending == st.pending + [Transaction(sender, recipient, amount)]
    ensures r.state.chain == st.chain && r.state.nodes == st.nodes
    ensures r.index.Some? <==> |st.chain| > 0
    ensures |st.chain| > 0 ==> r.index == Some(st.chain[|st.chain| - 1].index + 1)
    ensures |st.chain| > 0 && Indexed(st.chain) ==> r.index == Some(|st.chain| + 1)
  {
    var queued := st.(pending := st.pending + [Transaction(sender, recipient, amount)]);
    match LastBlock(queued)
    case Success(last) => Admission(queued, Some(last.index + 1))
    case Failure(_) => Admission(queued, None)
  }

  /** Admitting a transaction keeps the ledger invariant. */
  lemma NewTransactionWellformed(hash: Hasher, st: State, sender: string, recipient: string, amount: int)
    requires Wellformed(hash, st)
    ensures Wellformed(hash, NewTransaction(st, sender, recipient, amount).state)
  {
  }

  /** `register_node`: add the address's network location (`urlparse(address).netloc`,
      here the parameter `netloc`) to the peer set. */
  function RegisterNode(netloc: string -> string, st: State, address: string): (r: State)
    ensures netloc(address) in r.nodes
    ensures st.nodes <= r.nodes
    ensures forall n :: n in r.nodes ==> n in st.nodes || n == netloc(address)
    ensures r.chain == st.chain && r.pending == st.pending
  {
    st.(nodes := st.nodes + {netloc(address)})
  }

  /** Registering a second address with the same network location (in particular the same
      address twice) changes nothing. */
  lemma RegisterNodeIdempotent(netloc: string -> string, st: State, a1: string, a2: string)
    requires netloc(a1) == netloc(a2)
    ensures RegisterNode(netloc, RegisterNode(netloc, st, a1), a2) == RegisterNode(netloc, st, a1)
    ensures |RegisterNode(netloc, RegisterNode(netloc, st, a1), a2).nodes| == |RegisterNode(netloc, st, a1).nodes|
  {
  }

  /** Registering an address whose network location is already known changes nothing. */
  lemma RegisterKnownLocationIsNoOp(netloc: string -> string, st: State, address: string)
    requires netloc(address) in st.nodes
    ensures RegisterNode(netloc, st, address) == st
  {
  }
}

=== FILE: blocks.dfy ===
/** Block and transaction values of the ledger (blockchain.py, classes Transaction and Block). */
module Blocks {

  /** A transfer; the ledger treats it as opaque payload and validates nothing about it. */
  datatype Transaction = Transaction(sender: string, recipient: string, amount: int)

  /** One unit of the chain. `index` is 1-based; `timestamp` is the clock reading at creation,
      taken as an integer; `proof` is the proof-of-work nonce (0 for the genesis block);
      `previousHash` is the digest of the predecessor, or the genesis marker. */
  datatype Block = Block(
    index: int,
    timestamp: int,
    transactions: seq<Transaction>,
    proof: int,
    previousHash: string)

  /** The block digest. The source serialises the block to JSON and takes the SHA-256 hex
      digest; here it is an arbitrary function, and every property holds for all of them. */
  type Hasher = Block -> string

  /** The explicit `previous_hash` the ledger gives its genesis block. */
  const GenesisMarker: string := "0"

  /** The exceptions the core can raise, as values.
      EmptyChain: indexing an empty chain (`chain[-1]`, `chain[0]`).
      NotABlock: subscripting a Block object as if it were a dict.
      PeerUnreachable: the peer fetch raising instead of answering. */
  datatype Error = EmptyChain | NotABlock | PeerUnreachable
}

=== FILE: consensus.dfy ===
/** The consensus rule `resolve_conflicts` (blockchain.py:170-195). The peer fetch becomes an
    input: one answer per registered peer, in the order the peer set is walked. */
module Consensus {
  import opened Wrappers
  import opened Blocks
  import opened Validator
  import opened BlockChain

  /** A peer's answer to the chain request: status code, reported length, chain. */
  datatype Response = Response(status: int, length: int, chain: seq<Block>)

  /** What fetching one peer produced; None when the fetch raised. */
  type Fetched = Option<Response>

  /** A chain validator, as the consensus loop uses it. */
  type Validate = seq<Block> -> Result<bool, Error>

  /** The running state of the loop: the longest accepted length and the chain to adopt. */
  datatype Scanned = Scanned(maxLength: int, newChain: Option<seq<Block>>)

  /** The outcome of resolution: whether the chain was replaced, and the state afterwards. */
  datatype Resolution = Resolution(replaced: bool, state: State)

  /** Answer `j` is a candidate against the running length `m`: status 200, a reported length
      strictly above `m`, and a chain the validator accepts. */
  predicate Qualifies(validate: Validate, rs: seq<Fetched>, j: int, m: int)
    requires 0 <= j < |rs|
  {
    && rs[j].Some?
    && rs[j].value.status == 200
    && rs[j].value.length > m
    && validate(rs[j].value.chain) == Success(true)
  }

  /** `w` is the first of the longest candidates at or after position `i`. */
  predicate FirstLongest(validate: Validate, rs: seq<Fetched>, i: int, m: int, w: int)
    requires 0 <= i
  {
    && i <= w < |rs|
    && Qualifies(validate, rs, w, m)
    && (forall j :: i <= j < |rs| && Qualifies(validate, rs, j, m) ==> rs[j].value.length <= rs[w].value.length)
    && (forall j :: i <= j < w && Qualifies(validate, rs, j, m) ==> rs[j].value.length < rs[w].value.length)
  }

  /** The loop of lines 181-190 from peer `i` on. A failed fetch, or a validator that raises,
      ends the whole resolution; the validator runs only when the length test passed. */
  function Scan(validate: Validate, rs: seq<Fetched>, i: nat, maxLength: int, newChain: Option<seq<Block>>)
    : (r: Result<Scanned, Error>)
    requires i <= |rs|
    ensures (exists j :: i <= j < |rs| && rs[j].None?) ==> r.Failure?
    ensures r.Success? ==> r.value.maxLength >= maxLength
    decreases |rs| - i
  {
    if i == |rs| then Success(Scanned(maxLength, newChain))
    else match rs[i]
      case None => Failure(PeerUnreachable)
      case Some(resp) =>
        if resp.status == 200 && resp.length > maxLength then
          match validate(resp.chain)
          case Failure(e) => Failure(e)
          case Success(ok) =>
            if ok then Scan(validate, rs, i + 1, resp.length, Some(resp.chain))
            else Scan(validate, rs, i + 1, maxLength, newChain)
        else Scan(validate, rs, i + 1, maxLength, newChain)
  }

  /** The loop followed by lines 192-195: adopt the chosen chain if there is one. The test
      `if new_chain` also rejects an empty list. */
  function ResolveWith(validate: Validate, st: State, rs: seq<Fetched>): Result<Resolution, Error> {
    match Scan(validate, rs, 0, |st.chain|, None)
    case Failure(e) => Failure(e)
    case Success(s) =>
      if s.newChain.Some? && |s.newChain.value| > 0 then Success(Resolution(true, st.(chain := s.newChain.value)))
      else Success(Resolution(false, st))
  }

  /** The validator with the proof check made on the current block. */
  function Validation(hash: Hasher): Validate {
    c => ValidChain(hash, c)
  }

  /** The validator as written, with the proof check of line 152 that raises. */
  function ValidationAsWritten(hash: Hasher): Validate {
    c => ValidChainAsWritten(hash, c)
  }

  /** `resolve_conflicts`, `rs[k]` being the answer of the k-th peer visited. It adopts only
      a non-empty, linked and mined chain from a status-200 answer reporting a length strictly
      above the local length; otherwise the state is untouched; a failed fetch fails the call. */
  function ResolveConflicts(hash: Hasher, st: State, rs: seq<Fetched>): (r: Result<Resolution, Error>)
    requires |rs| == |st.nodes|
    ensures r.Success? && r.value.replaced ==>
      exists j :: 0 <= j < |rs| && rs[j].Some? && rs[j].value.status == 200
        && rs[j].value.length > |st.chain|
        && |rs[j].value.chain| > 0 && Linked(hash, rs[j].value.chain)
        && r.value.state == st.(chain := rs[j].value.chain)
    ensures r.Success? && !r.value.replaced ==> r.value.state == st
    ensures (exists j :: 0 <= j < |rs| && rs[j].None?) ==> r.Failure?
  {
    ScanAdoptsCandidate(Validation(hash), rs, 0, |st.chain|, None);
    ResolveWith(Validation(hash), st, rs)
  }

  /** `resolve_conflicts` with `vaild_chain` as written: only a one-block chain can ever be
      adopted, because any longer chain either fails its first link or raises. */
  function ResolveConflictsAsWritten(hash: Hasher, st: State, rs: seq<Fetched>): (r: Result<Resolution, Error>)
    requires |rs| == |st.nodes|
    ensures r.Success? && r.value.replaced ==>
      exists j :: 0 <= j < |rs| && rs[j].Some? && rs[j].value.status == 200
        && rs[j].value.length > |st.chain| && |rs[j].value.chain| == 1
        && r.value.state == st.(chain := rs[j].value.chain)
    ensures r.Success? && !r.value.replaced ==> r.value.state == st
    ensures (exists j :: 0 <= j < |rs| && rs[j].None?) ==> r.Failure?
  {
    ScanAdoptsCandidate(ValidationAsWritten(hash), rs, 0, |st.chain|, None);
    ResolveWith(ValidationAsWritten(hash), st, rs)
  }

  /** The loop's result is its starting point, or the answer of some candidate against the
      starting length. */
  lemma {:induction false} ScanAdoptsCandidate(validate: Validate, rs: seq<Fetched>, i: nat, m: int, best: Option<seq<Block>>)
    requires i <= |rs|
    ensures var r := Scan(validate, rs, i, m, best);
      r.Success? ==>
        || r.value == Scanned(m, best)
        || exists j :: i <= j < |rs| && Qualifies(validate, rs, j, m)
                       && r.value == Scanned(rs[j].value.length, Some(rs[j].value.chain))
    decreases |rs| - i
  {
    if i < |rs| && rs[i].Some? {
      var resp := rs[i].value;
      if resp.status == 200 && resp.length > m && validate(resp.chain) == Success(true) {
        ScanAdoptsCandidate(validate, rs, i + 1, resp.length, Some(resp.chain));
        assert Qualifies(validate, rs, i, m);
        var r := Scan(validate, rs, i + 1, resp.length, Some(resp.chain));
        if r.Success? && r.value != Scanned(resp.length, Some(resp.chain)) {
          var j :| i + 1 <= j < |rs| && Qualifies(validate, rs, j, resp.length)
                   && r.value == Scanned(rs[j].value.length, Some(rs[j].value.chain));
          assert Qualifies(validate, rs, j, m);
        }
      } else {
        ScanAdoptsCandidate(validate, rs, i + 1, m, best);
      }
    }
  }

  /** Every answer arrived, and no validator call raises on a status-200 chain. */
  predicate Healthy(validate: Validate, rs: seq<Fetched>) {
    forall j :: 0 <= j < |rs| ==>
      rs[j].Some? && (rs[j].value.status == 200 ==> validate(rs[j].value.chain).Success?)
  }

  /** The outcome `ScanPicksFirstLongest` establishes: the loop from `i` succeeds, keeps its
      starting point when nothing qualifies, and otherwise ends on the first of the longest
      candidates. */
  ghost predicate EndsOnFirstLongest(validate: Validate, rs: seq<Fetched>, i: nat, m: int, best: Option<seq<Block>>)
    requires i <= |rs|
  {
    var r := Scan(validate, rs, i, m, best);
    && r.Success?
    && ((forall j :: i <= j < |rs| ==> !Qualifies(validate, rs, j, m)) ==> r.value == Scanned(m, best))
    && ((exists j :: i <= j < |rs| && Qualifies(validate, rs, j, m)) ==>
          exists w :: FirstLongest(validate, rs, i, m, w)
            && r.value == Scanned(rs[w].value.length, Some(rs[w].value.chain)))
  }

  /** With healthy answers the loop succeeds, keeps its starting point when nothing qualifies,
      and otherwise ends on the first of the longest candidates. */
  lemma {:induction false} ScanPicksFirstLongest(validate: Validate, rs: seq<Fetched>, i: nat, m: int, best: Option<seq<Block>>)
    requires i <= |rs| && Healthy(validate, rs)
    ensures Scan(validate, rs, i, m, best).Success?
    ensures (forall j :: i <= j < |rs| ==> !Qualifies(validate, rs, j, m)) ==>
      Scan(validate, rs, i, m, best).value == Scanned(m, best)
    ensures (exists j :: i <= j < |rs| && Qualifies(validate, rs, j, m)) ==>
      exists w :: FirstLongest(validate, rs, i, m, w)
        && Scan(validate, rs, i, m, best).value == Scanned(rs[w].value.length, Some(rs[w].value.chain))
    decreases |rs| - i, 1
  {
    if i == |rs| {
    } else if Qualifies(validate, rs, i, m) {
      ScanTakeStep(validate, rs, i, m, best);
    } else {
      ScanSkipStep(validate, rs, i, m, best);
    }
  }

  /** The step where answer `i` qualifies: it becomes the running best, and the first of the
      longest candidates is either it or the first longest of the rest against its length. */
  lemma {:induction false} ScanTakeStep(validate: Validate, rs: seq<Fetched>, i: nat, m: int, best: Option<seq<Block>>)
    requires i < |rs| && Healthy(validate, rs) && Qualifies(validate, rs, i, m)
    ensures EndsOnFirstLongest(validate, rs, i, m, best)
    decreases |rs| - i, 0
  {
    var resp := rs[i].value;
    var m' := resp.length;
    ScanPicksFirstLongest(validate, rs, i + 1, m', Some(resp.chain));
    var r := Scan(validate, rs, i, m, best);
    assert r == Scan(validate, rs, i + 1, m', Some(resp.chain));
    if forall j :: i + 1 <= j < |rs| ==> !Qualifies(validate, rs, j, m') {
      forall j | i <= j < |rs| && Qualifies(validate, rs, j, m)
        ensures rs[j].value.length <= m'
      {
        if j > i {
          assert !Qualifies(validate, rs, j, m');
        }
      }
      assert FirstLongest(validate, rs, i, m, i);
    } else {
      var w :| FirstLongest(validate, rs, i + 1, m', w)
               && r.value == Scanned(rs[w].value.length, Some(rs[w].value.chain));
      var top := rs[w].value.length;
      assert Qualifies(validate, rs, w, m);
      forall j | i <= j < |rs| && Qualifies(validate, rs, j, m)
        ensures rs[j].value.length <= top
        ensures j < w ==> rs[j].value.length < top
      {
        if j > i && rs[j].value.length > m' {
          assert Qualifies(validate, rs, j, m');
        }
      }
      assert FirstLongest(validate, rs, i, m, w);
    }
  }

  /** The step where answer `i` does not qualify: the loop moves on unchanged, and the first
      of the longest candidates lies in the rest. */
  lemma {:induction false} ScanSkipStep(validate: Validate, rs: seq<Fetched>, i: nat, m: int, best: Option<seq<Block>>)
    requires i < |rs| && Healthy(validate, rs) && !Qualifies(validate, rs, i, m)
    ensures EndsOnFirstLongest(validate, rs, i, m, best)
    decreases |rs| - i, 0
  {
    assert rs[i].Some?;
    ScanPicksFirstLongest(validate, rs, i + 1, m, best);
    var r := Scan(validate, rs, i, m, best);
    assert r == Scan(validate, rs, i + 1, m, best);
    if exists j :: i <= j < |rs| && Qualifies(validate, rs, j, m) {
      var j0 :| i <= j0 < |rs| && Qualifies(validate, rs, j0, m);
      assert i + 1 <= j0;
      var w :| FirstLongest(validate, rs, i + 1, m, w)
               && r.value == Scanned(rs[w].value.length, Some(rs[w].value.chain));
      assert FirstLongest(validate, rs, i, m, w);
    }
  }

  /** The validator runs on answer `j` when every status-200 answer before it reports a
      shorter length, so if it raises there, the whole loop fails with that error. */
  lemma {:induction false} ScanRaisesFromValidator(validate: Validate, rs: seq<Fetched>, i: nat, m: int, best: Option<seq<Block>>, j: nat)
    requires i <= j < |rs|
    requires rs[j].Some? && rs[j].value.status == 200 && rs[j].value.length > m
    requires validate(rs[j].value.chain).Failure?
    requires forall k :: i <= k < j ==>
      (rs[k].Some? &&
       (rs[k].value.status == 200 ==> validate(rs[k].value.chain).Success? && rs[k].value.length < rs[j].value.length))
    ensures Scan(validate, rs, i, m, best) == Failure(validate(rs[j].value.chain).error)
    decreases j - i
  {
    if i < j {
      var resp := rs[i].value;
      if resp.status == 200 && resp.length > m && validate(resp.chain) == Success(true) {
        ScanRaisesFromValidator(validate, rs, i + 1, resp.length, Some(resp.chain), j);
      } else {
        ScanRaisesFromValidator(validate, rs, i + 1, m, best, j);
      }
    }
  }

  /** When every peer answers and no status-200 answer carries an empty chain, resolution
      succeeds; it leaves the state alone when no answer qualifies against the local length,
      and otherwise adopts the chain of the first of the longest qualifying answers. */
  lemma ResolveConflictsPicksFirstLongest(hash: Hasher, st: State, rs: seq<Fetched>)
    requires |rs| == |st.nodes|
    requires forall j :: 0 <= j < |rs| ==>
      rs[j].Some? && (rs[j].value.status == 200 ==> |rs[j].value.chain| > 0)
    ensures ResolveConflicts(hash, st, rs).Success?
    ensures (forall j :: 0 <= j < |rs| ==> !Qualifies(Validation(hash), rs, j, |st.chain|)) ==>
      ResolveConflicts(hash, st, rs).value == Resolution(false, st)
    ensures (exists j :: 0 <= j < |rs| && Qualifies(Validation(hash), rs, j, |st.chain|)) ==>
      exists w :: FirstLongest(Validation(hash), rs, 0, |st.chain|, w)
        && ResolveConflicts(hash, st, rs).value == Resolution(true, st.(chain := rs[w].value.chain))
  {
    var v := Validation(hash);
    assert Healthy(v, rs);
    ScanPicksFirstLongest(v, rs, 0, |st.chain|, None);
    if exists j :: 0 <= j < |rs| && Qualifies(v, rs, j, |st.chain|) {
      var w :| FirstLongest(v, rs, 0, |st.chain|, w)
               && Scan(v, rs, 0, |st.chain|, None).value == Scanned(rs[w].value.length, Some(rs[w].value.chain));
      assert |rs[w].value.chain| > 0;
    }
  }

  /** A status-200 answer with an empty chain that reports a length above the local length and
      above every earlier status-200 answer makes resolution fail: validating it reads
      `chain[0]`. */
  lemma ResolveConflictsFailsOnEmptyChain(hash: Hasher, st: State, rs: seq<Fetched>, j: nat)
    requires |rs| == |st.nodes| && j < |rs|
    requires rs[j].Some? && rs[j].value.status == 200 && rs[j].value.chain == []
    requires rs[j].value.length > |st.chain|
    requires forall k :: 0 <= k < j ==>
      (rs[k].Some? &&
       (rs[k].value.status == 200 ==> |rs[k].value.chain| > 0 && rs[k].value.length < rs[j].value.length))
    ensures ResolveConflicts(hash, st, rs) == Failure(EmptyChain)
  {
    ScanRaisesFromValidator(Validation(hash), rs, 0, |st.chain|, None, j);
  }

  /** Resolution keeps the part of the ledger invariant the validator checks: the chain stays
      non-empty, linked and mined. */
  lemma ResolveConflictsKeepsLinked(hash: Hasher, st: State, rs: seq<Fetched>)
    requires |rs| == |st.nodes|
    requires |st.chain| > 0 && Linked(hash, st.chain)
    ensures var r := ResolveConflicts(hash, st, rs);
      r.Success? ==> |r.value.state.chain| > 0 && Linked(hash, r.value.state.chain)
  {
  }

  /** Resolution can lose contiguous indices: the validator checks neither indices nor the first
      block, so a one-block chain whose block has index 7 replaces a fresh ledger's chain, and
      the model's `NewTransaction` then returns 8 on a chain of one block. The source keeps the
      adopted blocks as JSON dicts and raises at that point instead. */
  lemma ResolveConflictsCanLoseIndices(hash: Hasher)
    ensures var st := Init(0).(nodes := {"peer"});
      var odd := Block(7, 0, [], 0, "x");
      var r := ResolveConflicts(hash, st, [Some(Response(200, 2, [odd]))]);
      && r.Success? && r.value.replaced
      && r.value.state.chain == [odd]
      && !Indexed(r.value.state.chain)
      && NewTransaction(r.value.state, "a", "b", 1).index == Some(8)
  {
    var st := Init(0).(nodes := {"peer"});
    var odd := Block(7, 0, [], 0, "x");
    var rs: seq<Fetched> := [Some(Response(200, 2, [odd]))];
    assert |st.chain| == 1;
    assert Validation(hash)([odd]) == Success(true);
    assert Scan(Validation(hash), rs, 1, 2, Some([odd])) == Success(Scanned(2, Some([odd])));
    assert Scan(Validation(hash), rs, 0, 1, None) == Success(Scanned(2, Some([odd])));
    var r := ResolveConflicts(hash, st, rs);
    assert r == Success(Resolution(true, st.(chain := [odd])));
    assert r.value.state.chain[0].index != 0 + 1;
  }

  /** When every status-200 answer reports its chain's true length, a replacement always
      makes the local chain strictly longer. */
  lemma ResolveGrowsWithHonestPeers(hash: Hasher, st: State, rs: seq<Fetched>)
    requires |rs| == |st.nodes|
    requires forall j :: 0 <= j < |rs| && rs[j].Some? && rs[j].value.status == 200 ==>
      rs[j].value.length == |rs[j].value.chain|
    ensures var r := ResolveConflicts(hash, st, rs);
      r.Success? && r.value.replaced ==> |r.value.state.chain| > |st.chain|
  {
  }

  /** The comparison trusts the reported length: a peer that reports length 5 for its
      one-block chain replaces a two-block local chain, which shrinks. */
  lemma MisreportedLengthShrinksChain()
    ensures var hash: Hasher := b => "00";
      var genesis := Block(1, 0, [], 0, GenesisMarker);
      var st := State([genesis, Block(2, 1, [], 0, "00")], [], {"peer"});
      var r := ResolveConflicts(hash, st, [Some(Response(200, 5, [genesis]))]);
      r.Success? && r.value.replaced && |r.value.state.chain| == 1 < |st.chain|
  {
    var hash: Hasher := b => "00";
    var genesis := Block(1, 0, [], 0, GenesisMarker);
    var rs: seq<Fetched> := [Some(Response(200, 5, [genesis]))];
    assert ValidChain(hash, [genesis]) == Success(true);
    assert Scan(Validation(hash), rs, 1, 5, Some([genesis])) == Success(Scanned(5, Some([genesis])));
  }
}

=== FILE: puzzle.dfy ===
/** The proof-of-work puzzle: `valid_proof` and `proof_of_work` (blockchain.py:96-127). */
module Puzzle {
  import opened Blocks

  /** The difficulty prefix a digest must start with. */
  const Difficulty: string := "00"

  /** Python's slice `s[0:n]`: the first `n` characters, or all of `s` when it is shorter. */
  function Head(s: string, n: nat): (r: string)
    ensures |r| == if n <= |s| then n else |s|
    ensures r <= s
  {
    if n <= |s| then s[..n] else s
  }

  /** `hash[0:2] == "00"`. */
  predicate MeetsDifficulty(digest: string) {
    Head(digest, |Difficulty|) == Difficulty
  }

  /** A digest passes exactly when it has at least two characters and both are '0';
      a digest shorter than the prefix never passes. */
  lemma MeetsDifficultyIff(digest: string)
    ensures MeetsDifficulty(digest) <==> |digest| >= 2 && digest[0] == '0' && digest[1] == '0'
  {
  }

  /** `valid_proof(block, p)`: substitute the nonce into the block and test its digest.
      The source does the substitution in place (`block.proof = proof`); the model keeps the
      block immutable and callers that rely on that side effect set the field themselves. */
  predicate ValidProof(hash: Hasher, b: Block, p: int)
    ensures ValidProof(hash, b, p) <==>
      var digest := hash(b.(proof := p));
      |digest| >= 2 && digest[0] == '0' && digest[1] == '0'
  {
    MeetsDifficultyIff(hash(b.(proof := p)));
    MeetsDifficulty(hash(b.(proof := p)))
  }

  /** A block whose recorded proof passes its own check. */
  predicate Mined(hash: Hasher, b: Block) {
    ValidProof(hash, b, b.proof)
  }

  /** Checking a nonce depends on the block only apart from the proof it already records,
      and a block is mined exactly when its own digest meets the difficulty. */
  lemma ValidProofIgnoresRecordedProof(hash: Hasher, b: Block, q: int, p: int)
    ensures ValidProof(hash, b.(proof := q), p) == ValidProof(hash, b, p)
    ensures Mined(hash, b) <==> MeetsDifficulty(hash(b))
  {
  }

  /** Some non-negative nonce solves the block; without one the search never ends. */
  ghost predicate Solvable(hash: Hasher, b: Block) {
    exists w: nat :: ValidProof(hash, b, w)
  }

  /** `p` passes and no smaller non-negative nonce does. */
  predicate IsLeastProof(hash: Hasher, b: Block, p: nat) {
    ValidProof(hash, b, p) && forall k: nat :: k < p ==> !ValidProof(hash, b, k)
  }

  /** At most one nonce is the least passing one. */
  lemma LeastProofUnique(hash: Hasher, b: Block, p: nat, q: nat)
    requires IsLeastProof(hash, b, p) && IsLeastProof(hash, b, q)
    ensures p == q
  {
  }

  /** `proof_of_work`: try nonces 0, 1, 2, ... until one passes, and return it. */
  method ProofOfWork(hash: Hasher, b: Block) returns (proof: nat)
    requires Solvable(hash, b)
    ensures IsLeastProof(hash, b, proof)
  {
    ghost var w: nat :| ValidProof(hash, b, w);
    proof := 0;
    while !ValidProof(hash, b, proof)
      invariant proof <= w
      invariant forall k: nat :: k < proof ==> !ValidProof(hash, b, k)
      decreases w - proof
    {
      proof := proof + 1;
    }
  }
}

=== FILE: validator.dfy ===
/** The chain validator `vaild_chain` (blockchain.py:130-158). */
module Validator {
  import opened Wrappers
  import opened Blocks
  import opened Puzzle

  /** Position `j` of the chain links to its predecessor's digest and carries a passing
      proof of its own. */
  predicate LinkOk(hash: Hasher, chain: seq<Block>, j: int)
    requires 1 <= j < |chain|
  {
    chain[j].previousHash == hash(chain[j - 1]) && Mined(hash, chain[j])
  }

  /** Every block after the first links correctly and is mined. The first block is not checked. */
  predicate Linked(hash: Hasher, chain: seq<Block>) {
    forall j :: 1 <= j < |chain| ==> LinkOk(hash, chain, j)
  }

  /** The validator's loop, entered with `current_index == i`: it stops with false at the
      first pair whose link or proof fails, and with true once the index reaches the end.
      The proof check is made on the current block with its own recorded proof. */
  function CheckFrom(hash: Hasher, chain: seq<Block>, i: nat): (r: bool)
    requires 1 <= i <= |chain|
    ensures r <==> forall j :: i <= j < |chain| ==> LinkOk(hash, chain, j)
    decreases |chain| - i
  {
    if i == |chain| then true
    else if chain[i].previousHash != hash(chain[i - 1]) then
      assert !LinkOk(hash, chain, i);
      false
    else if !ValidProof(hash, chain[i], chain[i].proof) then
      assert !LinkOk(hash, chain, i);
      false
    else CheckFrom(hash, chain, i + 1)
  }

  /** `vaild_chain` with the proof check of line 152 made on the current block, as the
      validator evidently intends. Reading `chain[0]` of an empty chain raises. */
  function ValidChain(hash: Hasher, chain: seq<Block>): (r: Result<bool, Error>)
    ensures r.Failure? <==> |chain| == 0
    ensures r.Failure? ==> r.error == EmptyChain
    ensures r.Success? ==> (r.value <==> Linked(hash, chain))
    ensures |chain| == 1 ==> r == Success(true)
  {
    if |chain| == 0 then Failure(EmptyChain)
    else Success(CheckFrom(hash, chain, 1))
  }

  /** `vaild_chain` exactly as written. Line 152 calls `valid_proof(last_block['proof'],
      block['proof'])`: subscripting a Block raises, so the first pair whose link check at
      line 148 passes ends the call with an error instead of a verdict. */
  function ValidChainAsWritten(hash: Hasher, chain: seq<Block>): (r: Result<bool, Error>)
    ensures r == Success(true) <==> |chain| == 1
    ensures r == Success(false) <==> |chain| >= 2 && chain[1].previousHash != hash(chain[0])
  {
    if |chain| == 0 then Failure(EmptyChain)
    else if |chain| == 1 then Success(true)
    else if chain[1].previousHash != hash(chain[0]) then Success(false)
    else Failure(NotABlock)
  }

  /** The discrepancy: on every chain of two or more blocks that the intended validator
      accepts, the code as written raises instead. */
  lemma AsWrittenRejectsLinkedChains(hash: Hasher, chain: seq<Block>)
    requires |chain| >= 2 && Linked(hash, chain)
    ensures ValidChain(hash, chain) == Success(true)
    ensures ValidChainAsWritten(hash, chain) == Failure(NotABlock)
  {
  }

  /** Changing one block's `previousHash` away from its predecessor's digest makes the chain
      invalid, whatever else the chain holds. */
  lemma CorruptedLinkIsRejected(hash: Hasher, chain: seq<Block>, i: int, h: string)
    requires 1 <= i < |chain| && h != hash(chain[i - 1])
    ensures ValidChain(hash, chain[i := chain[i].(previousHash := h)]) == Success(false)
  {
    var bad := chain[i := chain[i].(previousHash := h)];
    assert !LinkOk(hash, bad, i);
  }

  /** Appending a block that links to the last one and is mined keeps a chain linked. */
  lemma {:induction false} LinkedAppend(hash: Hasher, chain: seq<Block>, b: Block)
    requires |chain| > 0 && Linked(hash, chain)
    requires b.previousHash == hash(chain[|chain| - 1]) && Mined(hash, b)
    ensures Linked(hash, chain + [b])
  {
    var ext := chain + [b];
    forall j | 1 <= j < |ext|
      ensures LinkOk(hash, ext, j)
    {
      if j < |chain| {
        assert LinkOk(hash, chain, j);
        assert ext[j] == chain[j] && ext[j - 1] == chain[j - 1];
      } else {
        assert ext[j] == b && ext[j - 1] == chain[|chain| - 1];
      }
    }
  }
}

=== FILE: wrappers.dfy ===
/** Failure-carrying wrappers shared by the ledger modules. */
module Wrappers {

  /** A value that may be absent (Python's `None`). */
  datatype Option<+T> = None | Some(value: T)

  /** A successful value, or the error the source raises instead of returning. */
  datatype Result<+T, +E> = Success(value: T) | Failure(error: E)
}
